=== FILE: README.md ===
# Task service: dispatcher and SQL repository

A model of the two working parts of a small task-tracking HTTP service
written in Go:

- the hand-rolled request dispatcher `Server.HandleTasks` and its result
  handlers (`internal/api/api.go`), and
- the raw-SQL repository `MySQLRepository` (`internal/repository/mysql.go`),
  modelled against an abstract `task` table.

Modules, leaves first:

| file | module | what it holds |
|---|---|---|
| `base.dfy` | `Base` | Go's `int64` as a newtype, and `Option` |
| `tasks.dfy` | `Tasks` | the `Task` row, repository error kinds, driver faults, the `(value, error)` pair |
| `strconv.dfy` | `Strconv` | `strconv.ParseInt(s, 10, 64)` and `fmt.Sprint` of an `int64`, with round-trip lemmas |
| `mysql.dfy` | `MySql`, `MySqlProperties` | the five SQL statements as functions of the table; the `TaskTable` class whose methods are proved against them; lemmas relating calls |
| `routing.dfy` | `Routing` | the routing decision of `HandleTasks` as the function `Classify`, with its properties |
| `api.dfy` | `Api`, `ApiProperties` | the outcome-to-response handlers, `Serve` (one whole request against the table), the response writer, the `Server` class, and end-to-end lemmas |

How the model is built:

- **Routing is pure.** `Classify` takes the method, the URL path, the
  `completed` query value and the outcome of decoding the body. It returns
  either an immediate `Reply(status, body)`, the one store operation to
  call with its argument, or `NoReply` (the handler writes nothing).
  - The id pattern `^/tasks/([0-9]+)$` is `IdDigits`.
  - `strconv.ParseInt(.., 10, 64)` is `ParseInt64`. It takes an optional
    sign, then one or more digits whose value must fit in an `int64`.
- **The table is a class.** `TaskTable` holds the rows, an AUTO_INCREMENT
  counter and the connection's CLIENT_FOUND_ROWS flag.
  - `TableState.Valid()` says ids are positive, below the counter and
    strictly increasing, hence unique.
  - The reads are methods that change nothing. The `for rows.Next()` loop is
    the method `ScanRows`, whose loop builds the result sequence.
  - `CreateTask` and `UpdateTask` change the rows. Each is proved equal to
    `CreateSpec` and `UpdateSpec`.
- **The driver is an input.** Every repository call takes a `Fault`: none,
  a failing Query/QueryRow/Exec, a failing Scan at row k, a failing
  `rows.Err()`, or a failing LastInsertId/RowsAffected. A fault at a step
  the operation never reaches has no effect on it. For example, a Scan
  failure at a row past the end of the result changes nothing. Read-by-id
  goes through `QueryRow(...).Scan`, which scans only row 0 and consults
  `rows.Err()` only when no row came back. So there a failing iteration
  turns a missing id into a plain failure rather than not-found, and does
  not affect a present row.
- **The handlers are imperative.** `Server` holds its store, set once by
  the constructor (`New`). `HandleTasks` and the five handlers write into a
  `ResponseWriter` through `HandleResponse`: the header, then the status,
  then the body.
  - `HandleTasks` is proved to leave the table as `Serve` says.
  - It is also proved that the handler writes either nothing or exactly
    one response with `Content-Type: application/json`.
- **`UpdateTask` takes the id explicitly.** This follows the implementation
  (`internal/repository/mysql.go:122`) and its caller
  (`internal/api/api.go:130`). The interface declaration
  (`internal/repository/repository.go:14`) and the repository test
  (`internal/repository/mysql_test.go:235`) use `UpdateTask(task)` instead.
  The two forms do not agree.

Behaviour of the code worth noting:

- A GET path that contains `/tasks` but does not match the anchored id
  pattern falls through to listing or filtering. Among the paths the mux
  hands to `HandleTasks` (`/tasks` and everything under `/tasks/`), this
  covers `GET /tasks`, `GET /tasks/`, `GET /tasks/abc` and `GET /tasks/12/x`.
- `PUT` on a path that does not match the id pattern answers 501. Among
  problems with the id, only digits beyond `int64` give 400.
- `Task` has no JSON tags, so the JSON keys are `ID`, `Name`, `Completed`.
- A non-empty `completed` query value other than exactly `"true"` filters for
  `completed = false`. This includes `"TRUE"` and `"1"`, as in
  `GET /tasks?completed=TRUE`.

Two consequences of the code as written that the model's lemmas state:

- A failing LastInsertId (or RowsAffected) returns 0 and an error. The
  dispatcher answers 400 even though the row was inserted (or updated).
- By default MySQL counts only the rows an UPDATE actually changed. The
  connection config (`internal/repository/mysql.go:23-29`) does not set
  `ClientFoundRows`. So re-sending a task's current values with PUT answers
  400 `not found` (see Findings).

## Model

| member | source | states |
|---|---|---|
| `Strconv.Digits` | internal/api/api.go:126 | the decimal text `fmt.Sprint` prints is non-empty, all ASCII digits, and has no leading zero |
| `Strconv.ValueOfDigits` | internal/api/api.go:126 | reading back the printed digits of n gives n |
| `Strconv.ParseDecimal` | internal/api/api.go:74 | `ParseInt(s, 10, 64)` applied to `fmt.Sprint(n)` gives n back, for every int64 n, negative ones included |
| `Strconv.LeadingZeros` | internal/api/api.go:92 | leading zeros do not change the value of a digit string |
| `Strconv.ParseInt64` | internal/api/api.go:74 | on a non-empty digit string the parse succeeds exactly when the value is at most 2^63-1, and then yields that value; a negative result comes only from a `-` followed by the digits of its magnitude |
| `Strconv.Decimal` | internal/api/api.go:126 | `fmt.Sprint` of a non-negative id is digits worth the id; of a negative one, `-` and then digits worth its magnitude |
| `Routing.ContainsInfix` | internal/api/api.go:51 | `strings.Contains` finds the substring wherever it occurs |
| `Routing.ContainsOnlyInfix` | internal/api/api.go:51 | `strings.Contains` holds only when the string splits as p + sub + q |
| `Routing.IdDigits` | internal/api/api.go:66-73 | a match yields a submatch d of one or more ASCII digits with the path equal to `/tasks/` + d |
| `Routing.Classify` | internal/api/api.go:51-114 | a store call happens only on a path containing `/tasks`; CreateTask only for POST with a decoded body; UpdateTask only for PUT with a decoded body and GetTaskByID only for GET, each on an id path whose digits parse to the non-negative id passed; the listings only for GET on a non-id path, the filter exactly when `completed` is non-empty and selecting completed tasks exactly for `"true"`; nothing is written exactly for another method on a `/tasks` path; immediate replies are 400 (decoder error or `Invalid id` text) or 501 |
| `Routing.IdDigitsMatch` | internal/api/api.go:66-73 | the id pattern matches a path, with submatch d, exactly when the path is `/tasks/` + d and d is one or more ASCII digits |
| `Routing.IdPathContainsTasks` | internal/api/api.go:51 | every path of the form `/tasks/` + d passes the `/tasks` check |
| `Routing.UnsupportedPath` | internal/api/api.go:51-54 | a path without `/tasks` gets 501 `"<path>" is not supported` and no store call, whatever the method |
| `Routing.PostRoute` | internal/api/api.go:57-64 | for POST on any path containing `/tasks`, a decode failure gives 400 with the decoder's error; otherwise CreateTask is called with the decoded task; the path's shape is not checked |
| `Routing.PutRejectsBeforeDecoding` | internal/api/api.go:65-84 | for PUT, a non-id path gives 501 and an id beyond int64 gives 400 `Invalid id`; neither depends on the body, so both checks come before decoding |
| `Routing.IdOverflow` | internal/api/api.go:65-96 | digits whose value exceeds 2^63-1 give 400 `Invalid id: <digits>` for both PUT and GET |
| `Routing.PutRoute` | internal/api/api.go:65-86 | PUT `/tasks/` + zeros + the decimal text of id, with a decoded body, calls UpdateTask(id, task) |
| `Routing.GetByIdRoute` | internal/api/api.go:87-99 | GET `/tasks/` + zeros + the decimal text of id calls GetTaskByID(id), whatever the query and body; leading zeros are insignificant |
| `Routing.IdRoundTrip` | internal/api/api.go:66-74 | an id's decimal text, after any zeros, matches the id pattern and parses back to the id |
| `Routing.NonIdSuffixFallsThrough` | internal/api/api.go:65-114 | for `/tasks/` followed by nothing or by text holding any non-digit (such as `/tasks/abc` or `/tasks/12/x`), GET lists or filters instead of failing, and PUT answers 501 `"<path>" is not supported` |
| `Routing.CollectionPathFallsThrough` | internal/api/api.go:65-114 | for `/tasks` alone, or followed by text not starting with `/`, GET lists or filters (so `?completed=TRUE` selects open tasks), and PUT answers 501 `"<path>" is not supported` |
| `Routing.PrefixedPathFallsThrough` | internal/api/api.go:65-114 | the id pattern is anchored: with `/tasks` anywhere but at the start of the path, GET lists or filters, and PUT answers 501 (for paths outside `/tasks/...` this holds when `HandleTasks` is called directly; the mux does not route them to it) |
| `MySql.Filter` | internal/repository/mysql.go:19 | `WHERE completed = ?` selects exactly the rows with that flag |
| `MySql.Find` | internal/repository/mysql.go:16 | `WHERE id = ?` gives a row of the table with that id, or nothing exactly when no row has it |
| `MySql.Overwrite` | internal/repository/mysql.go:18 | the UPDATE keeps every row's id and position; it sets name and completed on rows with the id and leaves every other row as it was |
| `MySql.Affected` | internal/repository/mysql.go:128 | the affected count is at most the number of rows, and is zero exactly when every row with the id (if any) already holds the new values and CLIENT_FOUND_ROWS is unset; with the flag set, exactly when no row has the id |
| `MySql.ListSpec` | internal/repository/mysql.go:43-67 | success gives every row in table order; failure gives an empty list and a list error; a healthy driver, or a scan fault past the last row, gives success |
| `MySql.GetSpec` | internal/repository/mysql.go:69-82 | success gives a row of the table with that id; failure gives the zero task and either NotFound(id) or a get-by-id error; NotFound exactly when no row has the id and neither the query nor the iteration failed; unless the query or the scan of row 0 fails, success exactly when such a row exists |
| `MySql.ByCompletedSpec` | internal/repository/mysql.go:84-108 | success gives exactly the rows with that completed flag; failure gives an empty list and a get-by-completed error; a healthy driver gives success |
| `MySql.CreateSpec` | internal/repository/mysql.go:110-120 | an insert keeps the table valid, and any error returns 0 |
| `MySql.UpdateSpec` | internal/repository/mysql.go:122-138 | an update keeps the table valid; it returns the id on success and 0 with any error |
| `MySql.ScanRows` | internal/repository/mysql.go:52-64 | the scan loop returns every result row in order, or nil and an error if any Scan or `rows.Err()` fails, never a partial list |
| `MySql.TaskTable.constructor` | internal/repository/mysql.go:22-41 | the repository opens onto a table that already holds valid rows |
| `MySql.TaskTable.ListTasks` | internal/repository/mysql.go:43-67 | returns one task per row, in row order, or an empty list and a list error exactly when a query, scan or iteration fails |
| `MySql.TaskTable.GetTaskByID` | internal/repository/mysql.go:69-82 | a success returns the row with that id; unless the query or the scan of row 0 fails, it succeeds exactly when such a row exists; with no row and neither a query nor an iteration failure the error is NotFound(id) |
| `MySql.TaskTable.GetTasksByCompleted` | internal/repository/mysql.go:84-108 | a success returns exactly the rows whose completed flag equals the argument; any failure returns an empty list and a get-by-completed error |
| `MySql.TaskTable.CreateTask` | internal/repository/mysql.go:110-120 | appends a row with the counter's id and the task's name and completed flag, ignoring the incoming id; returns the new id, or 0 and an error |
| `MySql.TaskTable.UpdateTask` | internal/repository/mysql.go:122-138 | changes the table and answers as UpdateSpec does, keeping the table valid |
| `MySqlProperties.CompletedPartition` | internal/repository/mysql.go:19 | the completed=true and completed=false selections together hold each row exactly once |
| `MySqlProperties.ListingPartition` | internal/repository/mysql.go:43-108 | with a healthy driver, GetTasksByCompleted(true) and GetTasksByCompleted(false) are disjoint, and their multiset union is ListTasks |
| `MySqlProperties.CreateThenGet` | internal/repository/mysql.go:110-120 | a healthy create returns the counter's id, and GetTaskByID of that id returns the posted name and completed flag under it |
| `MySqlProperties.UpdateThenGet` | internal/repository/mysql.go:122-138 | after an update of an existing id, whatever the driver reports afterwards, GetTaskByID(id) returns the new name and completed flag under the same id |
| `MySqlProperties.UpdateLeavesOthers` | internal/repository/mysql.go:18 | an update does not change what any other id reads back |
| `MySqlProperties.UpdateMissing` | internal/repository/mysql.go:133-135 | an update of an id that has no row changes nothing and returns 0 with NotFound |
| `MySqlProperties.UpdateReportsSuccess` | internal/repository/mysql.go:122-138 | on an existing id, an update succeeds exactly when CLIENT_FOUND_ROWS is set or the name or completed flag changes |
| `MySqlProperties.UnchangedUpdateReportsNotFound` | internal/repository/mysql.go:133-135 | as written: updating a task to the values it already has returns 0 and NotFound |
| `MySqlProperties.UpdateExistingSucceeds` | internal/repository/mysql.go:122-138 | corrected: with CLIENT_FOUND_ROWS, updating any existing id returns that id with no error, and the id then reads back with the new name and completed flag |
| `Api.CreatedResponse` | internal/api/api.go:119-127 | the status is 400 exactly when the store failed, with the store's error as body; otherwise 201 with text that parses back to the new id |
| `Api.UpdatedResponse` | internal/api/api.go:129-137 | the status is 400 exactly when the store failed, not-found included, with the store's error as body; otherwise 200 with text that parses back to the returned id |
| `Api.TaskResponse` | internal/api/api.go:139-153 | the status is 400 exactly when the store failed, with the store's error as body; otherwise 200 with the task |
| `Api.TasksResponse` | internal/api/api.go:155-185 | the status is 400 exactly when the store failed, with the store's error as body; otherwise 200 with the list |
| `Api.Serve` | internal/api/api.go:48-117 | one request keeps the table valid; only POST and PUT change the table; every status written is 200, 201, 400 or 501 |
| `Api.ResponseWriter.AddHeader` | internal/api/api.go:40 | appends one header field |
| `Api.ResponseWriter.WriteHeader` | internal/api/api.go:41 | only the first status code sticks |
| `Api.ResponseWriter.Write` | internal/api/api.go:42 | appends the body; a write before any status means 200 |
| `Api.HandleResponse` | internal/api/api.go:39-46 | the writer holds exactly one response: `Content-Type: application/json`, the status and the body |
| `Api.Server.constructor` | internal/api/api.go:20-32 | the server keeps the store it was given |
| `Api.Server.HandleTasks` | internal/api/api.go:48-117 | leaves the table as Serve says; the handler writes Serve's response with the JSON content type, or writes nothing when Serve gives none |
| `Api.Server.CreateTask` | internal/api/api.go:119-127 | any store error answers 400 with that error; success answers 201 with the id in decimal |
| `Api.Server.UpdateTask` | internal/api/api.go:129-137 | any store error, not-found included, answers 400; success answers 200 with the returned id in decimal |
| `Api.Server.GetTaskByID` | internal/api/api.go:139-153 | a store error answers 400; success answers 200 with the task |
| `Api.Server.GetTasks` | internal/api/api.go:155-169 | a store error answers 400; success answers 200 with the list |
| `Api.Server.GetTasksByCompleted` | internal/api/api.go:171-185 | a store error answers 400; success answers 200 with the filtered list |
| `ApiProperties.PostThenGet` | internal/api/api.go:57-64 | POST answers 201 with the new id in decimal; GET of `/tasks/` plus that text then answers 200 with the posted task under that id |
| `ApiProperties.PutServesUpdate` | internal/api/api.go:65-86 | PUT of an id path with a decoded body runs UpdateTask(id, task) and answers with its outcome |
| `ApiProperties.GetServesGetById` | internal/api/api.go:87-99 | GET of an id path answers with GetTaskByID's outcome and changes nothing |
| `ApiProperties.PutThenGet` | internal/api/api.go:129-137 | PUT on an existing id answers 200 with the id when CLIENT_FOUND_ROWS is set or the values change, and 400 NotFound otherwise; either way a later GET answers 200 with the new values under the same id |
| `ApiProperties.CreateResultFaultStillInserts` | internal/repository/mysql.go:110-120 | when LastInsertId fails, POST answers 400 with the create error although the table has gained the new row |
| `ApiProperties.UpdateResultFaultStillUpdates` | internal/repository/mysql.go:122-131 | when RowsAffected fails, PUT on an existing id answers 400 with the update error although the id now reads back with the new values |
| `ApiProperties.UnchangedPutIsBadRequest` | internal/api/api.go:129-137 | as written: a PUT that re-sends a task's current values answers 400 NotFound |
| `ApiProperties.MissingIdIsBadRequest` | internal/api/api.go:139-153 | GET of an id with no row answers 400 NotFound; PUT to it answers 400 NotFound and changes nothing |
| `ApiProperties.FilteredListingsPartition` | internal/api/api.go:102-114 | `?completed=true` and `?completed=false` both answer 200; one lists only completed tasks and the other only open ones; together they list exactly what `GET /tasks` lists |
| `ApiProperties.BuyMilk` | internal/api/api.go:119-153 | on a fresh table: POST "Buy milk" answers 201 `1`; GET `/tasks/1` answers the task; PUT with completed=true answers 200 `1`; GET then shows it completed |

## Left out

- The `Repository` interface and the ORM backend (`internal/repository/orm.go`) are not part of this model. The `Repository` interface is not modelled; `Server` holds the SQL table class directly. The ORM's `First` and `Save` semantics are library behaviour.
- `New`'s `http.ServeMux` registration is not modelled. The mux's own path cleaning and redirects are not modelled either. `HandleTasks` is modelled for any path.
- `parseTask` (JSON decoding) is an input: the `Decoded` outcome of the body.
- `json.Marshal` is not modelled. `TaskJson` and `TasksJson` stand for its output. The model does not capture the `ID`/`Name`/`Completed` keys, or that an empty result is Go's nil slice and encodes as `null`.
- The `json.Marshal` error branches (`internal/api/api.go:147-150`, `163-166`, `179-182`) are left out. Marshalling a `Task` or `[]Task` cannot fail.
- Routing.Quoted: `%q` is modelled as plain double quotes. Go's escaping of quotes, backslashes and non-printable characters is not modelled.
- Error messages are modelled as kinds (`NotFound(op, id)`, `Failed(op)`), not as formatted strings.
- MySql.TaskTable.GetTaskByID: on a Scan failure Go may return a partly filled task. The model returns the zero task. The dispatcher ignores the task on error either way.
- When the handler writes nothing (a method other than POST, PUT or GET on a `/tasks` path), net/http itself then answers 200 with an empty body and no JSON content type. The model stops at what the handler writes; that transport reply is not modelled.
- The logging of transport write errors in `handleResponse` (`internal/api/api.go:42-45`) is left out. So is Go's check of the status-code range in `WriteHeader`.
- Driver faults are limited to one per call, given as a parameter. Connection setup (`NewMySQLRepository`: DSN, open, ping) is left out.
- Concurrent requests and connection pooling are not modelled. Each request runs to completion against the table.
- The bootstrap programs (`cmd/server/main.go`, `cmd/cli/main.go`, `main.go`) are not part of this model.

## Findings

| source | as written | input that shows it | evidently intended | confidence | as-written member | corrected member |
|---|---|---|---|---|---|---|
| internal/repository/mysql.go:128-135 | zero RowsAffected is reported as `task(<id>) not found`; the connection config at lines 23-29 leaves ClientFoundRows unset, so MySQL counts only rows whose values changed | PUT `/tasks/1` with the name and completed flag task 1 already has answers 400 `not found` | not found only when no row has the id | medium (depends on the driver's default flags), not executed | MySqlProperties.UnchangedUpdateReportsNotFound | MySqlProperties.UpdateExistingSucceeds |

=== FILE: api.dfy ===
/** The HTTP side of `Server` (internal/api/api.go): the handlers that map
    a store outcome to a status and body, `handleResponse`, and
    `HandleTasks` as a whole, proved against `Serve`, a function of the
    request and the table. */
module Api {
  import opened Base
  import opened Tasks
  import opened Strconv
  import opened MySql
  import opened Routing

  // ---------------------------------------------------------------------
  // Store outcome to response (the Server.CreateTask ... GetTasksByCompleted handlers)

  /** Any store error is 400 with its text; success is 201 and the new id
      as decimal text that a client parses back to the same id. */
  function CreatedResponse(o: Outcome<int64>): (r: Response)
    ensures r.status == StatusBadRequest <==> o.err.Some?
    ensures o.err.Some? ==> r.body == Error(o.err.value)
    ensures o.err.None? ==> r.status == StatusCreated && r.body.Text? && ParseInt64(r.body.text) == Some(o.value)
  {
    if o.err.Some? then Response(StatusBadRequest, Error(o.err.value))
    else
      ParseDecimal(o.value);
      Response(StatusCreated, Text(Decimal(o.value)))
  }

  /** Any store error, not-found included, is 400; success is 200 and the id
      as decimal text that parses back to it. */
  function UpdatedResponse(o: Outcome<int64>): (r: Response)
    ensures r.status == StatusBadRequest <==> o.err.Some?
    ensures o.err.Some? ==> r.body == Error(o.err.value)
    ensures o.err.None? ==> r.status == StatusOK && r.body.Text? && ParseInt64(r.body.text) == Some(o.value)
  {
    if o.err.Some? then Response(StatusBadRequest, Error(o.err.value))
    else
      ParseDecimal(o.value);
      Response(StatusOK, Text(Decimal(o.value)))
  }

  /** Any store error is 400 with its text; success is 200 and the task. */
  function TaskResponse(o: Outcome<Task>): (r: Response)
    ensures r.status == StatusBadRequest <==> o.err.Some?
    ensures o.err.Some? ==> r.body == Error(o.err.value)
    ensures o.err.None? ==> r.status == StatusOK && r.body.TaskJson? && r.body.task == o.value
  {
    if o.err.Some? then Response(StatusBadRequest, Error(o.err.value))
    else Response(StatusOK, TaskJson(o.value))
  }

  /** Any store error is 400 with its text; success is 200 and the list. */
  function TasksResponse(o: Outcome<seq<Task>>): (r: Response)
    ensures r.status == StatusBadRequest <==> o.err.Some?
    ensures o.err.Some? ==> r.body == Error(o.err.value)
    ensures o.err.None? ==> r.status == StatusOK && r.body.TasksJson? && r.body.tasks == o.value
  {
    if o.err.Some? then Response(StatusBadRequest, Error(o.err.value))
    else Response(StatusOK, TasksJson(o.value))
  }

  /** One request against the table: the table afterwards and the response
      written, if any. */
  function Serve(req: Request, s: TableState, foundRows: bool, fault: Fault): (r: (TableState, Option<Response>))
    requires s.Valid()
    ensures r.0.Valid()
    ensures req.verb != "POST" && req.verb != "PUT" ==> r.0 == s
    ensures r.1.Some? ==> r.1.value.status in {StatusOK, StatusCreated, StatusBadRequest, StatusNotImplemented}
  {
    match Classify(req)
    case Reply(response) => (s, Some(response))
    case NoReply => (s, None)
    case CallCreate(task) =>
      var (s', o) := CreateSpec(s, task, fault);
      (s', Some(CreatedResponse(o)))
    case CallUpdate(id, task) =>
      var (s', o) := UpdateSpec(s, foundRows, id, task, fault);
      (s', Some(UpdatedResponse(o)))
    case CallGetById(id) => (s, Some(TaskResponse(GetSpec(s, id, fault))))
    case CallGetByCompleted(completed) => (s, Some(TasksResponse(ByCompletedSpec(s, completed, fault))))
    case CallList => (s, Some(TasksResponse(ListSpec(s, fault))))
  }

  // ---------------------------------------------------------------------
  // The response writer and handleResponse

  const ContentTypeJson: (string, string) := ("Content-Type", "application/json")

  /** The part of `http.ResponseWriter` the handlers use: header fields in
      the order added, the status line (0 until written) and the writes. */
  class ResponseWriter {
    var header: seq<(string, string)>
    var status: int
    var body: seq<Body>

    constructor ()
      ensures Unwritten()
    {
      header, status, body := [], 0, [];
    }

    ghost predicate Unwritten()
      reads this
    {
      header == [] && status == 0 && body == []
    }

    /** What the handler has written: nothing, or exactly one response
        carrying `Content-Type: application/json`. */
    ghost predicate Holds(response: Option<Response>)
      reads this
    {
      match response
      case None => Unwritten()
      case Some(r) => header == [ContentTypeJson] && status == r.status && body == [r.body]
    }

    /** `w.Header().Add(key, value)` */
    method AddHeader(key: string, value: string)
      modifies this
      ensures header == old(header) + [(key, value)] && status == old(status) && body == old(body)
    {
      header := header + [(key, value)];
    }

    /** `w.WriteHeader(code)`: only the first status line counts. */
    method WriteHeader(code: int)
      modifies this
      ensures header == old(header) && body == old(body)
      ensures status == if old(status) == 0 then code else old(status)
    {
      if status == 0 {
        status := code;
      }
    }

    /** `w.Write(b)`: a write before any status line implies 200. */
    method Write(b: Body)
      modifies this
      ensures header == old(header) && body == old(body) + [b]
      ensures status == if old(status) == 0 then StatusOK else old(status)
    {
      if status == 0 {
        status := StatusOK;
      }
      body := body + [b];
    }
  }

  /** `handleResponse`: the JSON content type, the status, then the body. */
  method HandleResponse(w: ResponseWriter, status: int, body: Body)
    requires w.Unwritten() && status != 0
    modifies w
    ensures w.Holds(Some(Response(status, body)))
  {
    w.AddHeader(ContentTypeJson.0, ContentTypeJson.1);
    w.WriteHeader(status);
    w.Write(body);
  }

  // ---------------------------------------------------------------------
  // The server

  class Server {
    /** The store, set once by `New`. */
    const store: TaskTable

    constructor (store: TaskTable)
      ensures this.store == store
    {
      this.store := store;
    }

    method HandleTasks(w: ResponseWriter, req: Request, fault: Fault)
      requires store.Valid() && w.Unwritten()
      modifies w, store
      ensures store.Valid()
      ensures store.State() == Serve(req, old(store.State()), store.foundRows, fault).0
      ensures w.Holds(Serve(req, old(store.State()), store.foundRows, fault).1)
    {
      var path := req.path;
      if !Contains(path, "/tasks") {
        HandleResponse(w, StatusNotImplemented, NotSupported(path));
        return;
      }
      if req.verb == "POST" {
        match req.body
        case DecodeFailed(msg) =>
          HandleResponse(w, StatusBadRequest, DecodeError(msg));
        case Decoded(task) =>
          CreateTask(w, task, fault);
      } else if req.verb == "PUT" {
        var m := IdDigits(path);
        if m.None? {
          HandleResponse(w, StatusNotImplemented, NotSupported(path));
          return;
        }
        var str := m.value;
        var id := ParseInt64(str);
        if id.None? {
          HandleResponse(w, StatusBadRequest, InvalidId(str));
          return;
        }
        match req.body
        case DecodeFailed(msg) =>
          HandleResponse(w, StatusBadRequest, DecodeError(msg));
        case Decoded(task) =>
          UpdateTask(w, id.value, task, fault);
      } else if req.verb == "GET" {
        var m := IdDigits(path);
        if m.Some? {
          var str := m.value;
          var id := ParseInt64(str);
          if id.None? {
            HandleResponse(w, StatusBadRequest, InvalidId(str));
            return;
          }
          GetTaskByID(w, id.value, fault);
          return;
        }
        var c := req.completed;
        if c != "" {
          var completed := false;
          if c == "true" {
            completed := true;
          }
          GetTasksByCompleted(w, completed, fault);
          return;
        }
        GetTasks(w, fault);
      }
    }

    method CreateTask(w: ResponseWriter, task: Task, fault: Fault)
      requires store.Valid() && w.Unwritten()
      modifies w, store
      ensures store.Valid()
      ensures store.State() == CreateSpec(old(store.State()), task, fault).0
      ensures w.Holds(Some(CreatedResponse(CreateSpec(old(store.State()), task, fault).1)))
    {
      var id, err := store.CreateTask(task, fault);
      if err.Some? {
        HandleResponse(w, StatusBadRequest, Error(err.value));
        return;
      }
      HandleResponse(w, StatusCreated, Text(Decimal(id)));
    }

    method UpdateTask(w: ResponseWriter, id: int64, task: Task, fault: Fault)
      requires store.Valid() && w.Unwritten()
      modifies w, store
      ensures store.Valid()
      ensures store.State() == UpdateSpec(old(store.State()), store.foundRows, id, task, fault).0
      ensures w.Holds(Some(UpdatedResponse(UpdateSpec(old(store.State()), store.foundRows, id, task, fault).1)))
    {
      var updated, err := store.UpdateTask(id, task, fault);
      if err.Some? {
        HandleResponse(w, StatusBadRequest, Error(err.value));
        return;
      }
      HandleResponse(w, StatusOK, Text(Decimal(updated)));
    }

    method GetTaskByID(w: ResponseWriter, id: int64, fault: Fault)
      requires w.Unwritten()
      modifies w
      ensures w.Holds(Some(TaskResponse(GetSpec(store.State(), id, fault))))
    {
      var task, err := store.GetTaskByID(id, fault);
      if err.Some? {
        HandleResponse(w, StatusBadRequest, Error(err.value));
        return;
      }
      HandleResponse(w, StatusOK, TaskJson(task));
    }

    method GetTasks(w: ResponseWriter, fault: Fault)
      requires w.Unwritten()
      modifies w
      ensures w.Holds(Some(TasksResponse(ListSpec(store.State(), fault))))
    {
      var tasks, err := store.ListTasks(fault);
      if err.Some? {
        HandleResponse(w, StatusBadRequest, Error(err.value));
        return;
      }
      HandleResponse(w, StatusOK, TasksJson(tasks));
    }

    method GetTasksByCompleted(w: ResponseWriter, completed: bool, fault: Fault)
      requires w.Unwritten()
      modifies w
      ensures w.Holds(Some(TasksResponse(ByCompletedSpec(store.State(), completed, fault))))
    {
      var tasks, err := store.GetTasksByCompleted(completed, fault);
      if err.Some? {
        HandleResponse(w, StatusBadRequest, Error(err.value));
        return;
      }
      HandleResponse(w, StatusOK, TasksJson(tasks));
    }
  }
}

/** Request sequences against the service, stated on `Serve`. */
module ApiProperties {
  import opened Base
  import opened Tasks
  import opened Strconv
  import opened MySql
  import opened MySqlProperties
  import opened Routing
  import opened Api

  /** POST of a decoded task answers 201 with the new id in decimal; a GET
      of `/tasks/` and that decimal text then answers 200 with the task as
      posted under its new id. */
  lemma {:induction false} PostThenGet(s: TableState, foundRows: bool, p: string, q: string, completed: string, task: Task,
                    completed2: string, body2: Decoded)
    requires s.Valid() && s.nextId <= MaxInt64
    ensures var id := s.nextId as int64;
      var (s1, r1) := Serve(Request("POST", p + "/tasks" + q, completed, Decoded(task)), s, foundRows, NoFault);
      r1 == Some(Response(StatusCreated, Text(Decimal(id)))) &&
      Serve(Request("GET", "/tasks/" + Decimal(id), completed2, body2), s1, foundRows, NoFault)
        == (s1, Some(Response(StatusOK, TaskJson(Task(id, task.name, task.completed)))))
  {
    var id := s.nextId as int64;
    PostRoute(p, q, completed, Decoded(task));
    CreateThenGet(s, task);
    var s1 := CreateSpec(s, task, NoFault).0;
    GetServesGetById(s1, foundRows, id, completed2, body2, NoFault);
  }

  /** A PUT of `/tasks/` and an id's decimal text, with a decoded body,
      runs UpdateTask with that id and answers with its outcome. */
  lemma {:induction false} PutServesUpdate(s: TableState, foundRows: bool, id: int64, task: Task, completed: string, fault: Fault)
    requires s.Valid() && id >= 0
    ensures var u := UpdateSpec(s, foundRows, id, task, fault);
      Serve(Request("PUT", "/tasks/" + Decimal(id), completed, Decoded(task)), s, foundRows, fault)
        == (u.0, Some(UpdatedResponse(u.1)))
  {
    assert "/tasks/" + [] + Decimal(id) == "/tasks/" + Decimal(id);
    PutRoute([], id, completed, task);
  }

  /** A GET of `/tasks/` and an id's decimal text answers with GetTaskByID's
      outcome for that id and changes nothing. */
  lemma {:induction false} GetServesGetById(s: TableState, foundRows: bool, id: int64, completed: string, body: Decoded, fault: Fault)
    requires s.Valid() && id >= 0
    ensures Serve(Request("GET", "/tasks/" + Decimal(id), completed, body), s, foundRows, fault)
      == (s, Some(TaskResponse(GetSpec(s, id, fault))))
  {
    assert "/tasks/" + [] + Decimal(id) == "/tasks/" + Decimal(id);
    GetByIdRoute([], id, completed, body);
  }

  /** PUT `/tasks/<id>` on an existing task answers 200 with the id when
      CLIENT_FOUND_ROWS is set or the values change, and 400 `not found`
      otherwise; either way a GET of the same path then answers 200 with
      the new name and completed flag under the same id. */
  lemma {:induction false} PutThenGet(s: TableState, foundRows: bool, id: int64, task: Task, completed: string, body2: Decoded)
    requires s.Valid() && Find(s.rows, id).Some?
    ensures var put := Serve(Request("PUT", "/tasks/" + Decimal(id), completed, Decoded(task)), s, foundRows, NoFault);
      put.1 == (if foundRows || Find(s.rows, id).value != Task(id, task.name, task.completed)
                then Some(Response(StatusOK, Text(Decimal(id))))
                else Some(Response(StatusBadRequest, Error(NotFound(Update(task), id))))) &&
      Serve(Request("GET", "/tasks/" + Decimal(id), completed, body2), put.0, foundRows, NoFault)
        == (put.0, Some(Response(StatusOK, TaskJson(Task(id, task.name, task.completed)))))
  {
    assert id >= 1 by {
      var t := Find(s.rows, id).value;
      var i :| 0 <= i < |s.rows| && s.rows[i] == t;
    }
    var u := UpdateSpec(s, foundRows, id, task, NoFault);
    PutServesUpdate(s, foundRows, id, task, completed, NoFault);
    UpdateReportsSuccess(s, foundRows, id, task);
    if foundRows || Find(s.rows, id).value != Task(id, task.name, task.completed) {
      assert u.1 == Outcome(id, None);
    } else {
      assert u.1 == Outcome(0, Some(NotFound(Update(task), id)));
    }
    UpdateThenGet(s, foundRows, id, task, NoFault);
    GetServesGetById(u.0, foundRows, id, completed, body2, NoFault);
  }

  /** A failing LastInsertId comes after the INSERT ran: POST then answers
      400 although the row was inserted. */
  lemma {:induction false} CreateResultFaultStillInserts(s: TableState, foundRows: bool, p: string, q: string,
                                                         completed: string, task: Task)
    requires s.Valid() && s.nextId <= MaxInt64
    ensures var (s1, r1) := Serve(Request("POST", p + "/tasks" + q, completed, Decoded(task)), s, foundRows, ResultFault);
      && s1.rows == s.rows + [Task(s.nextId as int64, task.name, task.completed)]
      && r1 == Some(Response(StatusBadRequest, Error(Failed(Insert(task)))))
  {
    PostRoute(p, q, completed, Decoded(task));
    var c := CreateSpec(s, task, ResultFault);
    assert c.0.rows == s.rows + [Task(s.nextId as int64, task.name, task.completed)];
    assert c.1 == Outcome(0, Some(Failed(Insert(task))));
  }

  /** A failing RowsAffected comes after the UPDATE ran: PUT on an existing
      id then answers 400 although the row now holds the new values. */
  lemma {:induction false} UpdateResultFaultStillUpdates(s: TableState, foundRows: bool, completed: string,
                                                         id: int64, task: Task)
    requires s.Valid() && Find(s.rows, id).Some?
    ensures var (s1, r1) := Serve(Request("PUT", "/tasks/" + Decimal(id), completed, Decoded(task)), s, foundRows, ResultFault);
      && GetSpec(s1, id, NoFault) == Outcome(Task(id, task.name, task.completed), None)
      && r1 == Some(Response(StatusBadRequest, Error(Failed(Update(task)))))
  {
    assert id >= 1 by {
      var i :| 0 <= i < |s.rows| && s.rows[i] == Find(s.rows, id).value;
    }
    PutServesUpdate(s, foundRows, id, task, completed, ResultFault);
    assert UpdateSpec(s, foundRows, id, task, ResultFault).1 == Outcome(0, Some(Failed(Update(task))));
    UpdateThenGet(s, foundRows, id, task, ResultFault);
  }

  /** As written: re-sending a task's current name and completed flag with
      PUT answers 400 `not found` on the driver's default connection flags. */
  lemma UnchangedPutIsBadRequest(s: TableState, id: int64, task: Task, completed: string)
    requires s.Valid() && Find(s.rows, id) == Some(Task(id, task.name, task.completed))
    ensures Serve(Request("PUT", "/tasks/" + Decimal(id), completed, Decoded(task)), s, false, NoFault).1
      == Some(Response(StatusBadRequest, Error(NotFound(Update(task), id))))
  {
    assert id >= 1 by {
      var i :| 0 <= i < |s.rows| && s.rows[i] == Find(s.rows, id).value;
    }
    assert "/tasks/" + [] + Decimal(id) == "/tasks/" + Decimal(id);
    PutRoute([], id, completed, task);
    UnchangedUpdateReportsNotFound(s, id, task);
  }

  /** GET of an id with no row answers 400 with the not-found error, and
      PUT to it answers 400 too, changing nothing. */
  lemma MissingIdIsBadRequest(s: TableState, foundRows: bool, id: int64, task: Task, completed: string, body: Decoded)
    requires s.Valid() && id >= 0 && Find(s.rows, id).None?
    ensures Serve(Request("GET", "/tasks/" + Decimal(id), completed, body), s, foundRows, NoFault).1
      == Some(Response(StatusBadRequest, Error(NotFound(GetById(id), id))))
    ensures Serve(Request("PUT", "/tasks/" + Decimal(id), completed, Decoded(task)), s, foundRows, NoFault)
      == (s, Some(Response(StatusBadRequest, Error(NotFound(Update(task), id)))))
  {
    assert "/tasks/" + [] + Decimal(id) == "/tasks/" + Decimal(id);
    GetByIdRoute([], id, completed, body);
    PutRoute([], id, completed, task);
    UpdateMissing(s, foundRows, id, task);
  }

  /** `GET /tasks?completed=true` and `?completed=false` answer 200 with
      lists that together hold exactly what `GET /tasks` lists. */
  lemma FilteredListingsPartition(s: TableState, foundRows: bool, body: Decoded)
    requires s.Valid()
    ensures var yes := Serve(Request("GET", "/tasks", "true", body), s, foundRows, NoFault).1;
      var no := Serve(Request("GET", "/tasks", "false", body), s, foundRows, NoFault).1;
      var all := Serve(Request("GET", "/tasks", "", body), s, foundRows, NoFault).1;
      yes.Some? && yes.value.status == StatusOK && yes.value.body.TasksJson? &&
      no.Some? && no.value.status == StatusOK && no.value.body.TasksJson? &&
      all.Some? && all.value.status == StatusOK && all.value.body.TasksJson? &&
      (forall t :: t in yes.value.body.tasks ==> t.completed) &&
      (forall t :: t in no.value.body.tasks ==> !t.completed) &&
      multiset(yes.value.body.tasks) + multiset(no.value.body.tasks) == multiset(all.value.body.tasks)
  {
    assert Contains("/tasks", "/tasks") by {
      assert "/tasks"[..6] == "/tasks";
    }
    assert IdDigits("/tasks").None?;
    ListingPartition(s);
  }

  /** The walk-through of a fresh table: create, read, complete, read. */
  lemma {:induction false} BuyMilk(foundRows: bool)
    ensures var s0 := TableState([], 1);
      var milk := Task(0, "Buy milk", false);
      var done := Task(0, "Buy milk", true);
      var post := Serve(Request("POST", "/tasks", "", Decoded(milk)), s0, foundRows, NoFault);
      var get1 := Serve(Request("GET", "/tasks/1", "", Decoded(milk)), post.0, foundRows, NoFault);
      var put := Serve(Request("PUT", "/tasks/1", "", Decoded(done)), get1.0, foundRows, NoFault);
      var get2 := Serve(Request("GET", "/tasks/1", "", Decoded(milk)), put.0, foundRows, NoFault);
      post.1 == Some(Response(StatusCreated, Text("1"))) &&
      get1.1 == Some(Response(StatusOK, TaskJson(Task(1, "Buy milk", false)))) &&
      put.1 == Some(Response(StatusOK, Text("1"))) &&
      get2.1 == Some(Response(StatusOK, TaskJson(Task(1, "Buy milk", true))))
  {
    var s0 := TableState([], 1);
    var milk := Task(0, "Buy milk", false);
    var done := Task(0, "Buy milk", true);
    assert Decimal(1) == "1";
    assert "/tasks/" + Decimal(1) == "/tasks/1";
    assert "/tasks" == [] + "/tasks" + [];
    PostThenGet(s0, foundRows, [], [], "", milk, "", Decoded(milk));
    var s1 := Serve(Request("POST", "/tasks", "", Decoded(milk)), s0, foundRows, NoFault).0;
    assert s1 == CreateSpec(s0, milk, NoFault).0;
    assert s1.rows == [Task(1, "Buy milk", false)];
    assert Find(s1.rows, 1) == Some(Task(1, "Buy milk", false));
    var get1 := Serve(Request("GET", "/tasks/1", "", Decoded(milk)), s1, foundRows, NoFault);
    assert get1.0 == s1;
    PutThenGet(s1, foundRows, 1, done, "", Decoded(milk));
  }
}

=== FILE: base.dfy ===
/** Go's fixed-width integer used for task ids, and the optional value
    that stands for Go's `(value, ok)` and `(value, err)` returns. */
module Base {

  const MinInt64: int := -0x8000_0000_0000_0000
  const MaxInt64: int := 0x7fff_ffff_ffff_ffff

  /** Go's `int64`. */
  newtype int64 = x: int | -0x8000_0000_0000_0000 <= x <= 0x7fff_ffff_ffff_ffff

  datatype Option<+T> = None | Some(value: T)
}

=== FILE: mysql.dfy ===
/** The raw-SQL repository (internal/repository/mysql.go) against an
    abstract `task` table. Each operation runs one fixed statement:
    ListTasks selects every column of every row; GetTaskByID selects the
    row whose id equals its argument; GetTasksByCompleted selects the rows
    whose completed flag equals its argument; CreateTask inserts a row
    giving only name and completed; UpdateTask sets name and completed on
    the rows whose id equals its argument.

    The statements' meaning is given by functions over `TableState`; the
    class `TaskTable` holds the table and its methods are proved against them. */
module MySql {
  import opened Base
  import opened Tasks

  /** The table's rows in the order `SELECT *` returns them, and the
      AUTO_INCREMENT counter that the next insert takes its id from. */
  datatype TableState = TableState(rows: seq<Task>, nextId: int) {
    /** Ids are positive, below the counter and strictly increasing along
        the rows, hence unique. */
    ghost predicate Valid() {
      && 1 <= nextId <= MaxInt64 + 1
      && (forall i :: 0 <= i < |rows| ==> 1 <= rows[i].id as int < nextId)
      && (forall i, j :: 0 <= i < j < |rows| ==> rows[i].id < rows[j].id)
    }
  }

  // ---------------------------------------------------------------------
  // What the statements select and change

  /** The rows `WHERE completed = ?` selects, in table order. */
  function Filter(rows: seq<Task>, completed: bool): (r: seq<Task>)
    ensures |r| <= |rows|
    ensures forall t :: t in r <==> t in rows && t.completed == completed
  {
    if rows == [] then []
    else if rows[0].completed == completed then [rows[0]] + Filter(rows[1..], completed)
    else Filter(rows[1..], completed)
  }

  /** The row `WHERE id = ?` selects, if there is one. */
  function Find(rows: seq<Task>, id: int64): (r: Option<Task>)
    ensures r.Some? ==> r.value in rows && r.value.id == id
    ensures r.None? <==> forall t :: t in rows ==> t.id != id
  {
    if rows == [] then None
    else if rows[0].id == id then Some(rows[0])
    else Find(rows[1..], id)
  }

  /** The table after `UPDATE task SET name = ?, completed = ? WHERE id = ?`:
      every row keeps its id and place; only rows with that id take the new
      name and completed flag. */
  function Overwrite(rows: seq<Task>, id: int64, task: Task): (r: seq<Task>)
    ensures |r| == |rows|
    ensures forall i :: 0 <= i < |rows| ==>
      r[i] == if rows[i].id == id then Task(id, task.name, task.completed) else rows[i]
  {
    if rows == [] then []
    else
      var head := if rows[0].id == id then Task(id, task.name, task.completed) else rows[0];
      [head] + Overwrite(rows[1..], id, task)
  }

  /** MySQL's affected-row count for that UPDATE. With the CLIENT_FOUND_ROWS
      connection flag it counts the rows the WHERE matched; without it (the
      driver's default) only the rows whose values actually changed. */
  function Affected(rows: seq<Task>, id: int64, task: Task, foundRows: bool): (n: nat)
    ensures n <= |rows|
    ensures n == 0 <==> forall t :: t in rows && t.id == id ==>
      !foundRows && t.name == task.name && t.completed == task.completed
  {
    if rows == [] then 0
    else
      var hit := rows[0].id == id &&
        (foundRows || rows[0].name != task.name || rows[0].completed != task.completed);
      assert forall t :: t in rows <==> t == rows[0] || t in rows[1..];
      (if hit then 1 else 0) + Affected(rows[1..], id, task, foundRows)
  }

  /** Whether the scan loop over `n` result rows ends in an error. */
  predicate ScanFails(fault: Fault, n: nat) {
    fault == IterFault || (fault.ScanFault? && fault.row < n)
  }

  /** Whether a multi-row read over `n` result rows returns an error. */
  predicate ReadFails(fault: Fault, n: nat) {
    fault == QueryFault || ScanFails(fault, n)
  }

  // ---------------------------------------------------------------------
  // The five operations as functions of the table

  /** Every row in table order, or nothing and an error when the query,
      a row scan or the iteration fails. */
  function ListSpec(s: TableState, fault: Fault): (r: Outcome<seq<Task>>)
    ensures r.err.None? ==> r.value == s.rows
    ensures r.err.Some? ==> r.value == [] && r.err.value == Failed(ListAll)
    ensures fault == NoFault ==> r.err.None?
    ensures fault.ScanFault? && fault.row >= |s.rows| ==> r.err.None?
  {
    if ReadFails(fault, |s.rows|) then Outcome([], Some(Failed(ListAll)))
    else Outcome(s.rows, None)
  }

  /** The rows with the given completed flag, or nothing and an error. */
  function ByCompletedSpec(s: TableState, completed: bool, fault: Fault): (r: Outcome<seq<Task>>)
    ensures r.err.None? ==> forall t :: t in r.value <==> t in s.rows && t.completed == completed
    ensures r.err.Some? ==> r.value == [] && r.err.value == Failed(GetByCompleted(completed))
    ensures fault == NoFault ==> r.err.None?
  {
    var selected := Filter(s.rows, completed);
    if ReadFails(fault, |selected|) then Outcome([], Some(Failed(GetByCompleted(completed))))
    else Outcome(selected, None)
  }

  /** `QueryRow(...).Scan(...)`: the row with that id, or the zero task and
      an error. Scan reports a failed iteration before it reports that no
      row came back, so only a missing id with neither a query nor an
      iteration failure is "not found". Only the first result row is ever
      scanned, so a present row is read unless the query or the scan of
      row 0 fails. */
  function GetSpec(s: TableState, id: int64, fault: Fault): (r: Outcome<Task>)
    ensures r.err.None? ==> r.value in s.rows && r.value.id == id
    ensures r.err.Some? ==> r.value == ZeroTask
    ensures r.err.Some? ==> r.err.value in {NotFound(GetById(id), id), Failed(GetById(id))}
    ensures r.err == Some(NotFound(GetById(id), id)) <==>
      (fault != QueryFault && fault != IterFault && forall t :: t in s.rows ==> t.id != id)
    ensures fault != QueryFault && fault != ScanFault(0) ==>
      (r.err.None? <==> exists t :: t in s.rows && t.id == id)
  {
    if fault == QueryFault then Outcome(ZeroTask, Some(Failed(GetById(id))))
    else match Find(s.rows, id)
      case None =>
        if fault == IterFault then Outcome(ZeroTask, Some(Failed(GetById(id))))
        else Outcome(ZeroTask, Some(NotFound(GetById(id), id)))
      case Some(t) =>
        if fault == ScanFault(0) then Outcome(ZeroTask, Some(Failed(GetById(id))))
        else Outcome(t, None)
  }

  /** The insert takes its id from the counter; it fails when the counter
      has run past the largest `int64`. A failing LastInsertId reports an
      error even though the row was inserted. */
  function CreateSpec(s: TableState, task: Task, fault: Fault): (r: (TableState, Outcome<int64>))
    requires s.Valid()
    ensures r.0.Valid()
    ensures r.1.err.Some? ==> r.1.value == 0
  {
    if fault == QueryFault || s.nextId > MaxInt64 then (s, Outcome(0, Some(Failed(Insert(task)))))
    else
      var id := s.nextId as int64;
      var s' := TableState(s.rows + [Task(id, task.name, task.completed)], s.nextId + 1);
      if fault == ResultFault then (s', Outcome(0, Some(Failed(Insert(task)))))
      else (s', Outcome(id, None))
  }

  /** A failing RowsAffected reports an error even though the rows were
      updated; zero affected rows is reported as not found. */
  function UpdateSpec(s: TableState, foundRows: bool, id: int64, task: Task, fault: Fault): (r: (TableState, Outcome<int64>))
    ensures s.Valid() ==> r.0.Valid()
    ensures r.1.err.Some? ==> r.1.value == 0
    ensures r.1.err.None? ==> r.1.value == id
  {
    if fault == QueryFault then (s, Outcome(0, Some(Failed(Update(task)))))
    else
      var s' := s.(rows := Overwrite(s.rows, id, task));
      if fault == ResultFault then (s', Outcome(0, Some(Failed(Update(task)))))
      else if Affected(s.rows, id, task, foundRows) == 0 then (s', Outcome(0, Some(NotFound(Update(task), id))))
      else (s', Outcome(id, None))
  }

  // ---------------------------------------------------------------------
  // The `for rows.Next()` loop

  /** Scans the result rows one by one, appending each; any scan error or a
      final `rows.Err()` gives nil and an error, never a partial list. */
  method ScanRows(result: seq<Task>, fault: Fault, op: Op) returns (tasks: seq<Task>, err: Option<RepoError>)
    ensures ScanFails(fault, |result|) ==> tasks == [] && err == Some(Failed(op))
    ensures !ScanFails(fault, |result|) ==> tasks == result && err == None
  {
    tasks := [];
    var i := 0;
    while i < |result|
      invariant 0 <= i <= |result|
      invariant tasks == result[..i]
      invariant fault.ScanFault? ==> fault.row >= i
    {
      if fault == ScanFault(i) {
        return [], Some(Failed(op));
      }
      tasks := tasks + [result[i]];
      i := i + 1;
    }
    if fault == IterFault {
      return [], Some(Failed(op));
    }
    assert result[..i] == result;
    return tasks, None;
  }

  // ---------------------------------------------------------------------
  // The repository object

  /** `MySQLRepository`: the `db` handle stands for the table behind it. */
  class TaskTable {
    var rows: seq<Task>
    var nextId: int
    /** Whether the connection sets CLIENT_FOUND_ROWS (`mysql.Config.ClientFoundRows`). */
    const foundRows: bool

    function State(): TableState
      reads this
    {
      TableState(rows, nextId)
    }

    ghost predicate Valid()
      reads this
    {
      State().Valid()
    }

    /** Connects to a table that already holds `rows`. */
    constructor (rows: seq<Task>, nextId: int, foundRows: bool)
      requires TableState(rows, nextId).Valid()
      ensures Valid() && State() == TableState(rows, nextId) && this.foundRows == foundRows
    {
      this.rows := rows;
      this.nextId := nextId;
      this.foundRows := foundRows;
    }

    /** Every row, in table order, or nil and an error. */
    method ListTasks(fault: Fault) returns (tasks: seq<Task>, err: Option<RepoError>)
      ensures Outcome(tasks, err) == ListSpec(State(), fault)
      ensures err.None? <==> !ReadFails(fault, |rows|)
      ensures err.None? ==> tasks == rows
      ensures err.Some? ==> tasks == [] && err.value == Failed(ListAll)
    {
      if fault == QueryFault {
        return [], Some(Failed(ListAll));
      }
      tasks, err := ScanRows(rows, fault, ListAll);
    }

    /** The row with that id; a missing row is `NotFound`, any other failure
        a get-by-id error. */
    method GetTaskByID(id: int64, fault: Fault) returns (task: Task, err: Option<RepoError>)
      ensures Outcome(task, err) == GetSpec(State(), id, fault)
      ensures err.None? ==> task in rows && task.id == id
      ensures fault != QueryFault && fault != ScanFault(0) ==>
        (err.None? <==> exists t :: t in rows && t.id == id)
      ensures fault != QueryFault && fault != IterFault && (forall t :: t in rows ==> t.id != id) ==>
        err == Some(NotFound(GetById(id), id))
    {
      task := ZeroTask;
      if fault == QueryFault {
        return task, Some(Failed(GetById(id)));
      }
      var row := Find(rows, id);
      if row.None? {
        if fault == IterFault {
          return task, Some(Failed(GetById(id)));
        }
        return task, Some(NotFound(GetById(id), id));
      }
      if fault == ScanFault(0) {
        return task, Some(Failed(GetById(id)));
      }
      task := row.value;
      err := None;
    }

    /** The rows whose completed flag equals `completed`, in table order. */
    method GetTasksByCompleted(completed: bool, fault: Fault) returns (tasks: seq<Task>, err: Option<RepoError>)
      ensures Outcome(tasks, err) == ByCompletedSpec(State(), completed, fault)
      ensures err.None? ==> forall t :: t in tasks <==> t in rows && t.completed == completed
      ensures err.Some? ==> tasks == [] && err.value == Failed(GetByCompleted(completed))
    {
      if fault == QueryFault {
        return [], Some(Failed(GetByCompleted(completed)));
      }
      var selected := Filter(rows, completed);
      tasks, err := ScanRows(selected, fault, GetByCompleted(completed));
    }

    /** Inserts only the name and completed flag; the incoming id is ignored.
        Returns the new id, or 0 and an error. */
    method CreateTask(task: Task, fault: Fault) returns (id: int64, err: Option<RepoError>)
      requires Valid()
      modifies this
      ensures Valid()
      ensures (State(), Outcome(id, err)) == CreateSpec(old(State()), task, fault)
      ensures err.None? ==> rows == old(rows) + [Task(id, task.name, task.completed)]
    {
      if fault == QueryFault || nextId > MaxInt64 {
        return 0, Some(Failed(Insert(task)));
      }
      var newId := nextId as int64;
      rows := rows + [Task(newId, task.name, task.completed)];
      nextId := nextId + 1;
      if fault == ResultFault {
        return 0, Some(Failed(Insert(task)));
      }
      return newId, None;
    }

    /** Overwrites name and completed of the row with that id. Returns the
        id, or 0 and an error; zero affected rows is `NotFound`. */
    method UpdateTask(id: int64, task: Task, fault: Fault) returns (updated: int64, err: Option<RepoError>)
      requires Valid()
      modifies this
      ensures Valid()
      ensures (State(), Outcome(updated, err)) == UpdateSpec(old(State()), foundRows, id, task, fault)
    {
      if fault == QueryFault {
        return 0, Some(Failed(Update(task)));
      }
      var affected := Affected(rows, id, task, foundRows);
      rows := Overwrite(rows, id, task);
      if fault == ResultFault {
        return 0, Some(Failed(Update(task)));
      }
      if affected == 0 {
        return 0, Some(NotFound(Update(task), id));
      }
      return id, None;
    }
  }
}

/** Properties of the repository that relate several calls. */
module MySqlProperties {
  import opened Base
  import opened Tasks
  import opened MySql

  /** Every row lands in exactly one of the completed=true and
      completed=false selections. */
  lemma {:induction false} CompletedPartition(rows: seq<Task>)
    ensures multiset(Filter(rows, true)) + multiset(Filter(rows, false)) == multiset(rows)
  {
    if rows != [] {
      CompletedPartition(rows[1..]);
      assert rows == [rows[0]] + rows[1..];
    }
  }

  /** With a healthy driver, GetTasksByCompleted(true) and (false) split
      ListTasks between them: disjoint, and together every listed row. */
  lemma ListingPartition(s: TableState)
    ensures ByCompletedSpec(s, true, NoFault).err.None? && ByCompletedSpec(s, false, NoFault).err.None?
    ensures ListSpec(s, NoFault).err.None?
    ensures multiset(ByCompletedSpec(s, true, NoFault).value) + multiset(ByCompletedSpec(s, false, NoFault).value)
      == multiset(ListSpec(s, NoFault).value)
    ensures forall t :: t in ByCompletedSpec(s, true, NoFault).value ==> t !in ByCompletedSpec(s, false, NoFault).value
  {
    CompletedPartition(s.rows);
  }

  lemma {:induction false} FindAppend(a: seq<Task>, b: seq<Task>, id: int64)
    ensures Find(a + b, id) == if Find(a, id).Some? then Find(a, id) else Find(b, id)
  {
    if a != [] {
      assert (a + b)[1..] == a[1..] + b;
      FindAppend(a[1..], b, id);
    } else {
      assert a + b == b;
    }
  }

  /** A task created with a healthy driver is read back by its new id,
      carrying the posted name and completed flag. */
  lemma CreateThenGet(s: TableState, task: Task)
    requires s.Valid() && s.nextId <= MaxInt64
    ensures CreateSpec(s, task, NoFault).1 == Outcome(s.nextId as int64, None)
    ensures GetSpec(CreateSpec(s, task, NoFault).0, s.nextId as int64, NoFault)
      == Outcome(Task(s.nextId as int64, task.name, task.completed), None)
  {
    var id := s.nextId as int64;
    var t := Task(id, task.name, task.completed);
    FindAppend(s.rows, [t], id);
    assert Find(s.rows, id).None?;
    assert Find([t], id) == Some(t);
  }

  /** After an update, the row with that id reads back with the new values. */
  lemma {:induction false} FindOverwritten(rows: seq<Task>, id: int64, task: Task)
    requires Find(rows, id).Some?
    ensures Find(Overwrite(rows, id, task), id) == Some(Task(id, task.name, task.completed))
  {
    if rows[0].id != id {
      FindOverwritten(rows[1..], id, task);
    }
  }

  /** An update does not change what any other id reads back. */
  lemma {:induction false} FindOthers(rows: seq<Task>, id: int64, task: Task, other: int64)
    requires other != id
    ensures Find(Overwrite(rows, id, task), other) == Find(rows, other)
  {
    if rows != [] {
      FindOthers(rows[1..], id, task, other);
    }
  }

  /** Update on an existing id (whatever the driver reports after the
      UPDATE ran) leaves that row with the new name and completed flag
      under the same id. */
  lemma UpdateThenGet(s: TableState, foundRows: bool, id: int64, task: Task, fault: Fault)
    requires Find(s.rows, id).Some? && fault != QueryFault
    ensures GetSpec(UpdateSpec(s, foundRows, id, task, fault).0, id, NoFault)
      == Outcome(Task(id, task.name, task.completed), None)
  {
    var s' := UpdateSpec(s, foundRows, id, task, fault).0;
    assert s'.rows == Overwrite(s.rows, id, task);
    FindOverwritten(s.rows, id, task);
  }

  /** Update leaves what every other id reads back as it was. */
  lemma UpdateLeavesOthers(s: TableState, foundRows: bool, id: int64, task: Task, fault: Fault, other: int64)
    requires other != id
    ensures GetSpec(UpdateSpec(s, foundRows, id, task, fault).0, other, NoFault) == GetSpec(s, other, NoFault)
  {
    var s' := UpdateSpec(s, foundRows, id, task, fault).0;
    assert s'.rows == s.rows || s'.rows == Overwrite(s.rows, id, task);
    FindOthers(s.rows, id, task, other);
  }

  /** Update on an id with no row changes nothing and reports not found. */
  lemma UpdateMissing(s: TableState, foundRows: bool, id: int64, task: Task)
    requires Find(s.rows, id).None?
    ensures UpdateSpec(s, foundRows, id, task, NoFault) == (s, Outcome(0, Some(NotFound(Update(task), id))))
  {
    var r := Overwrite(s.rows, id, task);
    assert forall i :: 0 <= i < |s.rows| ==> s.rows[i] in s.rows;
    assert r == s.rows;
  }

  /** In a valid table the row `Find` returns is the only one with its id. */
  lemma OnlyRowWithId(s: TableState, id: int64, t: Task)
    requires s.Valid() && t in s.rows && t.id == id
    ensures Find(s.rows, id) == Some(t)
  {
    var i :| 0 <= i < |s.rows| && s.rows[i] == t;
    var j :| 0 <= j < |s.rows| && s.rows[j] == Find(s.rows, id).value;
    if i < j || j < i {
      assert s.rows[i].id != s.rows[j].id;
    }
  }

  /** On an existing id and a healthy driver, UpdateTask reports success
      exactly when CLIENT_FOUND_ROWS is set or the new name or completed
      flag differs from the stored one. */
  lemma UpdateReportsSuccess(s: TableState, foundRows: bool, id: int64, task: Task)
    requires s.Valid() && Find(s.rows, id).Some?
    ensures UpdateSpec(s, foundRows, id, task, NoFault).1.err.None? <==>
      foundRows || Find(s.rows, id).value != Task(id, task.name, task.completed)
  {
    var found := Find(s.rows, id).value;
    var n := Affected(s.rows, id, task, foundRows);
    assert UpdateSpec(s, foundRows, id, task, NoFault).1.err.None? <==> n != 0;
    if foundRows {
      assert found in s.rows && found.id == id;
    } else {
      forall t | t in s.rows && t.id == id
        ensures t == found
      {
        OnlyRowWithId(s, id, t);
      }
      assert n == 0 <==> found.name == task.name && found.completed == task.completed;
    }
  }

  /** As written (the driver's default connection flags): updating an
      existing task with the values it already holds changes no row, so
      UpdateTask reports `task(<id>) not found`. */
  lemma UnchangedUpdateReportsNotFound(s: TableState, id: int64, task: Task)
    requires s.Valid()
    requires Find(s.rows, id) == Some(Task(id, task.name, task.completed))
    ensures UpdateSpec(s, false, id, task, NoFault).1 == Outcome(0, Some(NotFound(Update(task), id)))
  {
    forall t | t in s.rows && t.id == id
      ensures t.name == task.name && t.completed == task.completed
    {
      OnlyRowWithId(s, id, t);
    }
  }

  /** Corrected (CLIENT_FOUND_ROWS set): updating any existing task succeeds
      and returns its id, whether or not the values change, and the id then
      reads back with the new name and completed flag. */
  lemma UpdateExistingSucceeds(s: TableState, id: int64, task: Task)
    requires Find(s.rows, id).Some?
    ensures var (s', o) := UpdateSpec(s, true, id, task, NoFault);
      o == Outcome(id, None) && GetSpec(s', id, NoFault) == Outcome(Task(id, task.name, task.completed), None)
  {
    UpdateThenGet(s, true, id, task, NoFault);
  }
}

=== FILE: routing.dfy ===
/** The routing decision of `Server.HandleTasks` (internal/api/api.go):
    from the method, the URL path, the `completed` query value and the
    outcome of decoding the body, either an immediate response or the one
    store operation to call. */
module Routing {
  import opened Base
  import opened Tasks
  import opened Strconv

  const StatusOK := 200
  const StatusCreated := 201
  const StatusBadRequest := 400
  const StatusNotImplemented := 501

  /** The outcome of `parseTask`, i.e. of JSON-decoding the request body. */
  datatype Decoded = Decoded(task: Task) | DecodeFailed(msg: string)

  /** What `HandleTasks` reads from `*http.Request`: `verb` is `r.Method`, `completed` is
      `r.URL.Query().Get("completed")`, the empty string when absent. */
  datatype Request = Request(verb: string, path: string, completed: string, body: Decoded)

  /** A response body. JSON encoding of a task is not modelled: `TaskJson`
      and `TasksJson` stand for what `json.Marshal` produces. */
  datatype Body =
    | Text(text: string)            // a plain message, or an id in decimal
    | DecodeError(msg: string)      // err.Error() of the JSON decoder
    | Error(err: RepoError)         // err.Error() of a repository call
    | TaskJson(task: Task)          // json.Marshal(task)
    | TasksJson(tasks: seq<Task>)   // json.Marshal(tasks)

  datatype Response = Response(status: int, body: Body)

  /** What the dispatcher does with a request. */
  datatype Route =
    | Reply(response: Response)
    | CallCreate(task: Task)
    | CallUpdate(id: int64, task: Task)
    | CallGetById(id: int64)
    | CallGetByCompleted(completed: bool)
    | CallList
    | NoReply

  /** Go's `strings.HasPrefix`. */
  predicate HasPrefix(s: string, prefix: string) {
    |prefix| <= |s| && s[..|prefix|] == prefix
  }

  /** Go's `strings.Contains`. */
  predicate Contains(s: string, sub: string) {
    HasPrefix(s, sub) || (s != [] && Contains(s[1..], sub))
  }

  /** `fmt.Sprintf("%q", path)`, without Go's escaping of special characters. */
  function Quoted(s: string): string {
    "\"" + s + "\""
  }

  function NotSupported(path: string): Body {
    Text(Quoted(path) + " is not supported")
  }

  function InvalidId(digits: string): Body {
    Text("Invalid id: " + digits)
  }

  /** The submatch of `^/tasks/([0-9]+)$`, if the path matches. */
  function IdDigits(path: string): (r: Option<string>)
    ensures r.Some? ==> path == "/tasks/" + r.value && r.value != [] && AllDigits(r.value)
  {
    if HasPrefix(path, "/tasks/") && |path| > 7 && AllDigits(path[7..]) then
      assert path == path[..7] + path[7..];
      Some(path[7..])
    else None
  }

  /** The listing a GET falls through to when its path is not an id path:
      a non-empty `completed` value filters, comparing it with exactly
      "true"; an empty one lists everything. */
  function Listing(completed: string): Route {
    if completed == "" then CallList else CallGetByCompleted(completed == "true")
  }

  /** The dispatcher's decision. Only a path containing `/tasks` reaches a
      store operation; creation needs POST and a decoded body; update and
      read-by-id need the id pattern and an id that fits in an `int64`
      (hence non-negative); listings are GETs whose path is not an id path;
      every other method on a `/tasks` path gets nothing written; and the
      immediate replies are 400 for bad input and 501 for unsupported paths. */
  function Classify(req: Request): (r: Route)
    ensures !r.Reply? ==> Contains(req.path, "/tasks")
    ensures r.CallCreate? ==> req.verb == "POST" && req.body == Decoded(r.task)
    ensures r.CallUpdate? ==>
      && req.verb == "PUT" && req.body == Decoded(r.task) && r.id >= 0
      && IdDigits(req.path).Some? && ParseInt64(IdDigits(req.path).value) == Some(r.id)
    ensures r.CallGetById? ==>
      && req.verb == "GET" && r.id >= 0
      && IdDigits(req.path).Some? && ParseInt64(IdDigits(req.path).value) == Some(r.id)
    ensures r.CallGetByCompleted? ==>
      && req.verb == "GET" && IdDigits(req.path).None?
      && req.completed != "" && (r.completed <==> req.completed == "true")
    ensures r.CallList? ==> req.verb == "GET" && IdDigits(req.path).None? && req.completed == ""
    ensures r.NoReply? <==>
      Contains(req.path, "/tasks") && req.verb != "POST" && req.verb != "PUT" && req.verb != "GET"
    ensures r.Reply? ==> r.response.status in {StatusBadRequest, StatusNotImplemented}
    ensures r.Reply? && r.response.status == StatusBadRequest ==>
      r.response.body.DecodeError? || r.response.body.Text?
  {
    if !Contains(req.path, "/tasks") then Reply(Response(StatusNotImplemented, NotSupported(req.path)))
    else if req.verb == "POST" then
      match req.body
      case DecodeFailed(msg) => Reply(Response(StatusBadRequest, DecodeError(msg)))
      case Decoded(task) => CallCreate(task)
    else if req.verb == "PUT" then
      match IdDigits(req.path)
      case None => Reply(Response(StatusNotImplemented, NotSupported(req.path)))
      case Some(digits) =>
        match ParseInt64(digits)
        case None => Reply(Response(StatusBadRequest, InvalidId(digits)))
        case Some(id) =>
          match req.body
          case DecodeFailed(msg) => Reply(Response(StatusBadRequest, DecodeError(msg)))
          case Decoded(task) => CallUpdate(id, task)
    else if req.verb == "GET" then
      match IdDigits(req.path)
      case Some(digits) =>
        (match ParseInt64(digits)
         case None => Reply(Response(StatusBadRequest, InvalidId(digits)))
         case Some(id) => CallGetById(id))
      case None =>
        Listing(req.completed)
    else NoReply
  }

  // ---------------------------------------------------------------------
  // Path matching

  /** `Contains` finds `sub` wherever it occurs. */
  lemma {:induction false} ContainsInfix(p: string, sub: string, q: string)
    ensures Contains(p + sub + q, sub)
  {
    if p == [] {
      assert p + sub + q == sub + q;
      assert (sub + q)[..|sub|] == sub;
    } else {
      assert (p + sub + q)[1..] == p[1..] + sub + q;
      ContainsInfix(p[1..], sub, q);
    }
  }

  /** ... and only where it occurs. */
  lemma {:induction false} ContainsOnlyInfix(s: string, sub: string)
    requires Contains(s, sub)
    ensures exists p, q :: s == p + sub + q
  {
    if HasPrefix(s, sub) {
      assert s == [] + sub + s[|sub|..];
    } else {
      ContainsOnlyInfix(s[1..], sub);
      var p, q :| s[1..] == p + sub + q;
      assert s == [s[0]] + p + sub + q;
    }
  }

  /** The id pattern matches exactly `/tasks/` followed by one or more ASCII
      digits, and yields those digits. */
  lemma IdDigitsMatch(path: string, digits: string)
    ensures IdDigits(path) == Some(digits) <==>
      path == "/tasks/" + digits && digits != [] && AllDigits(digits)
  {
    if path == "/tasks/" + digits {
      assert path[..7] == "/tasks/" && path[7..] == digits;
    }
    if IdDigits(path) == Some(digits) {
      assert path == path[..7] + path[7..];
    }
  }

  lemma IdPathContainsTasks(digits: string)
    ensures Contains("/tasks/" + digits, "/tasks")
  {
    ContainsInfix([], "/tasks", "/" + digits);
    assert [] + "/tasks" + ("/" + digits) == "/tasks/" + digits;
  }

  // ---------------------------------------------------------------------
  // Routing properties

  /** A path without `/tasks` is answered 501 whatever the method. */
  lemma UnsupportedPath(req: Request)
    requires forall p, q :: req.path != p + "/tasks" + q
    ensures Classify(req) == Reply(Response(StatusNotImplemented, NotSupported(req.path)))
  {
    if Contains(req.path, "/tasks") {
      ContainsOnlyInfix(req.path, "/tasks");
    }
  }

  /** POST does not look at the path's shape: a decode failure is 400 with
      the decoder's error, otherwise the decoded task goes to CreateTask. */
  lemma PostRoute(p: string, q: string, completed: string, body: Decoded)
    ensures Classify(Request("POST", p + "/tasks" + q, completed, body)) ==
      match body
      case DecodeFailed(msg) => Reply(Response(StatusBadRequest, DecodeError(msg)))
      case Decoded(task) => CallCreate(task)
  {
    ContainsInfix(p, "/tasks", q);
  }

  /** PUT checks the path and the id before the body: a path that is not
      `/tasks/<digits>` is 501, digits beyond `int64` are 400, and the body
      is never consulted in either case. */
  lemma PutRejectsBeforeDecoding(req: Request, other: Decoded)
    requires req.verb == "PUT" && Contains(req.path, "/tasks")
    requires IdDigits(req.path).None? || ParseInt64(IdDigits(req.path).value).None?
    ensures Classify(req) == Classify(req.(body := other))
    ensures IdDigits(req.path).None? ==> Classify(req) == Reply(Response(StatusNotImplemented, NotSupported(req.path)))
    ensures IdDigits(req.path).Some? ==> Classify(req) == Reply(Response(StatusBadRequest, InvalidId(IdDigits(req.path).value)))
  {
  }

  /** An id of digits whose value exceeds the largest `int64` is 400
      `Invalid id: <digits>` for PUT and GET alike. */
  lemma IdOverflow(verb: string, digits: string, completed: string, body: Decoded)
    requires verb == "PUT" || verb == "GET"
    requires digits != [] && AllDigits(digits) && Value(digits) > MaxInt64
    ensures Classify(Request(verb, "/tasks/" + digits, completed, body))
      == Reply(Response(StatusBadRequest, InvalidId(digits)))
  {
    IdPathContainsTasks(digits);
    IdDigitsMatch("/tasks/" + digits, digits);
  }

  /** PUT on `/tasks/<digits>` with a decoded body updates the task whose id
      is the digits' value; leading zeros do not matter. */
  lemma PutRoute(zeros: string, id: int64, completed: string, task: Task)
    requires AllZeros(zeros) && id >= 0
    ensures Classify(Request("PUT", "/tasks/" + zeros + Decimal(id), completed, Decoded(task)))
      == CallUpdate(id, task)
  {
    var digits := zeros + Decimal(id);
    assert "/tasks/" + zeros + Decimal(id) == "/tasks/" + digits;
    IdRoundTrip(zeros, id);
  }

  /** GET on `/tasks/<digits>` reads the task whose id is the digits' value,
      whatever the query; leading zeros do not matter. */
  lemma GetByIdRoute(zeros: string, id: int64, completed: string, body: Decoded)
    requires AllZeros(zeros) && id >= 0
    ensures Classify(Request("GET", "/tasks/" + zeros + Decimal(id), completed, body)) == CallGetById(id)
  {
    var digits := zeros + Decimal(id);
    assert "/tasks/" + zeros + Decimal(id) == "/tasks/" + digits;
    IdRoundTrip(zeros, id);
  }

  /** The digits of a non-negative id, after any zeros, match the id
      pattern and parse back to the id. */
  lemma IdRoundTrip(zeros: string, id: int64)
    requires AllZeros(zeros) && id >= 0
    ensures var digits := zeros + Decimal(id);
      Contains("/tasks/" + digits, "/tasks") &&
      IdDigits("/tasks/" + digits) == Some(digits) &&
      ParseInt64(digits) == Some(id)
  {
    var digits := zeros + Decimal(id);
    LeadingZeros(zeros, Decimal(id));
    IdPathContainsTasks(digits);
    IdDigitsMatch("/tasks/" + digits, digits);
    ParseDecimal(id);
  }

  /** `/tasks/` followed by nothing, or by anything holding a non-digit
      (`/tasks/abc`, `/tasks/12/x`), is not an id path: GET falls through
      to the listing rather than answering 400, and PUT is answered 501. */
  lemma NonIdSuffixFallsThrough(s: string, completed: string, body: Decoded)
    requires s == [] || !AllDigits(s)
    ensures Classify(Request("GET", "/tasks/" + s, completed, body)) == Listing(completed)
    ensures Classify(Request("PUT", "/tasks/" + s, completed, body))
      == Reply(Response(StatusNotImplemented, NotSupported("/tasks/" + s)))
  {
    var path := "/tasks/" + s;
    IdPathContainsTasks(s);
    assert path[7..] == s;
  }

  /** The collection path `/tasks`, and `/tasks` followed by anything that
      does not start with `/`, is not an id path: GET falls through to the
      listing (so `GET /tasks?completed=TRUE` selects open tasks), and PUT
      is answered 501. */
  lemma CollectionPathFallsThrough(q: string, completed: string, body: Decoded)
    requires q == [] || q[0] != '/'
    ensures Classify(Request("GET", "/tasks" + q, completed, body)) == Listing(completed)
    ensures Classify(Request("PUT", "/tasks" + q, completed, body))
      == Reply(Response(StatusNotImplemented, NotSupported("/tasks" + q)))
  {
    var path := "/tasks" + q;
    ContainsInfix([], "/tasks", q);
    assert [] + "/tasks" + q == path;
    if q != [] {
      assert path[..7][6] == q[0];
    }
  }

  /** The id pattern is anchored: when `/tasks` appears anywhere but at the
      start of the path (`/tasks/7/tasks`), GET falls through to the listing
      and PUT is answered 501. The mux set up by `New` hands `HandleTasks`
      only `/tasks` and paths under `/tasks/`; other paths of this shape,
      such as `/api/tasks/7`, reach it only when it is called directly. */
  lemma PrefixedPathFallsThrough(p: string, q: string, completed: string, body: Decoded)
    requires p != []
    ensures Classify(Request("GET", p + "/tasks" + q, completed, body)) == Listing(completed)
    ensures Classify(Request("PUT", p + "/tasks" + q, completed, body))
      == Reply(Response(StatusNotImplemented, NotSupported(p + "/tasks" + q)))
  {
    var path := p + "/tasks" + q;
    ContainsInfix(p, "/tasks", q);
    assert path[|p|] == '/' && path[|p| + 1] == 't';
    if |p| < 6 {
      assert path[..7][|p|] != "/tasks/"[|p|];
      assert !HasPrefix(path, "/tasks/");
    } else {
      assert path[7..][|p| - 6] == 't';
      assert !AllDigits(path[7..]);
    }
  }
}

=== FILE: strconv.dfy ===
/** Decimal text for Go's `strconv.ParseInt(s, 10, 64)` and `fmt.Sprint`
    of an `int64`, as the dispatcher uses them for task ids. */
module Strconv {
  import opened Base

  predicate IsDigit(c: char) { '0' <= c <= '9' }

  predicate AllDigits(s: string) { forall i :: 0 <= i < |s| ==> IsDigit(s[i]) }

  predicate AllZeros(s: string) { forall i :: 0 <= i < |s| ==> s[i] == '0' }

  /** The value of a string of decimal digits, read left to right the way
      `strconv.ParseUint` accumulates it (`n = n*10 + d`). */
  function Value(d: string): nat
    requires AllDigits(d)
  {
    if d == [] then 0 else 10 * Value(d[..|d| - 1]) + (d[|d| - 1] as int - '0' as int)
  }

  function DigitChar(k: nat): (c: char)
    requires k < 10
    ensures IsDigit(c) && c as int - '0' as int == k
  {
    ('0' as int + k) as char
  }

  /** The shortest decimal spelling of `n`, without leading zeros. */
  function Digits(n: nat): (r: string)
    ensures r != [] && AllDigits(r)
    ensures |r| > 1 ==> r[0] != '0'
  {
    if n < 10 then [DigitChar(n)] else Digits(n / 10) + [DigitChar(n % 10)]
  }

  /** `fmt.Sprint(n)` for an `int64`: a minus sign for negative values,
      then the digits of the magnitude. */
  function Decimal(n: int64): (r: string)
    ensures n >= 0 ==> r != [] && AllDigits(r) && Value(r) == n as int
    ensures n < 0 ==> |r| >= 2 && r[0] == '-' && AllDigits(r[1..]) && Value(r[1..]) == -(n as int)
  {
    if n < 0 then
      var d := Digits(-(n as int));
      ValueOfDigits(-(n as int));
      assert ("-" + d)[1..] == d;
      "-" + d
    else
      ValueOfDigits(n as int);
      Digits(n as int)
  }

  /** `strconv.ParseInt(s, 10, 64)`: an optional sign, then one or more
      decimal digits whose value fits in an `int64`; `None` for a syntax
      or range error. On the unsigned digit strings the dispatcher hands it,
      it succeeds exactly when the value fits, and yields that value. */
  function ParseInt64(s: string): (r: Option<int64>)
    ensures s != [] && AllDigits(s) ==> (r.Some? <==> Value(s) <= MaxInt64)
    ensures s != [] && AllDigits(s) && r.Some? ==> r.value as int == Value(s)
    ensures r.Some? && r.value < 0 ==> s != [] && s[0] == '-' && AllDigits(s[1..]) && Value(s[1..]) == -(r.value as int)
  {
    assert s != [] && AllDigits(s) ==> IsDigit(s[0]);
    if s == [] then None
    else
      var neg := s[0] == '-';
      var digits := if s[0] == '+' || s[0] == '-' then s[1..] else s;
      if digits == [] || !AllDigits(digits) then None
      else
        var v := Value(digits);
        if neg then (if v <= -MinInt64 then Some((-(v as int)) as int64) else None)
        else (if v <= MaxInt64 then Some(v as int64) else None)
  }

  lemma ValueSnoc(d: string, c: char)
    requires AllDigits(d) && IsDigit(c)
    ensures AllDigits(d + [c]) && Value(d + [c]) == 10 * Value(d) + (c as int - '0' as int)
  {
    assert (d + [c])[..|d|] == d;
  }

  /** Reading back the digits of `n` gives `n`. */
  lemma {:induction false} ValueOfDigits(n: nat)
    ensures Value(Digits(n)) == n
  {
    if n >= 10 {
      ValueOfDigits(n / 10);
      ValueSnoc(Digits(n / 10), DigitChar(n % 10));
    }
  }

  /** Parsing what `fmt.Sprint` prints gives back the same `int64`. */
  lemma ParseDecimal(n: int64)
    ensures ParseInt64(Decimal(n)) == Some(n)
  {
  }

  /** A string of zeros is worth nothing. */
  lemma {:induction false} ValueOfZeros(z: string)
    requires AllZeros(z)
    ensures AllDigits(z) && Value(z) == 0
  {
    if z != [] {
      ValueOfZeros(z[..|z| - 1]);
    }
  }

  /** Leading zeros do not change the value of a digit string. */
  lemma {:induction false} LeadingZeros(z: string, d: string)
    requires AllZeros(z) && AllDigits(d)
    ensures AllDigits(z + d) && Value(z + d) == Value(d)
  {
    if d == [] {
      assert z + d == z;
      ValueOfZeros(z);
    } else {
      var init, c := d[..|d| - 1], d[|d| - 1];
      assert d == init + [c];
      assert z + d == (z + init) + [c];
      LeadingZeros(z, init);
      ValueSnoc(z + init, c);
      ValueSnoc(init, c);
    }
  }
}

=== FILE: tasks.dfy ===
/** The single entity of the service and the ways a repository call can
    fail (internal/repository/repository.go and the error values built in
    internal/repository/mysql.go). */
module Tasks {
  import opened Base

  /** A row of the `task` table; `id` 0 means "not yet persisted". */
  datatype Task = Task(id: int64, name: string, completed: bool)

  /** What `var task Task` holds before anything is scanned into it. */
  const ZeroTask := Task(0, "", false)

  /** The repository operation an error message names. */
  datatype Op =
    | ListAll                      // "failed to list tasks"
    | GetById(id: int64)           // "failed to get a task by id: <id>"
    | GetByCompleted(completed: bool) // "failed to get tasks by completed=<c>"
    | Insert(task: Task)           // "failed to create task: <task>"
    | Update(task: Task)           // "failed to update task: <task>"

  /** The kinds of error a repository call returns. Wording is not modelled,
      only which operation failed and whether it was a missing row. */
  datatype RepoError =
    | NotFound(op: Op, id: int64)  // "task(<id>) not found"
    | Failed(op: Op)               // any driver, query or scan failure

  /** The one way the database driver misbehaves during a call, if any.
      The driver is not part of the model; its failures are an input. */
  datatype Fault =
    | NoFault
    | QueryFault           // db.Query, db.QueryRow or db.Exec returns an error
    | ScanFault(row: nat)  // rows.Scan / row.Scan fails on the row at this position
    | IterFault            // rows.Err() reports an error once iteration stops
    | ResultFault          // result.LastInsertId or result.RowsAffected returns an error

  /** A Go `(value, error)` return: `err` is `None` for a nil error. */
  datatype Outcome<T> = Outcome(value: T, err: Option<RepoError>)
}
